=== FILE: README.md ===
# Adaptive spatial partition tree, modelled in Dafny

This project models the partition tree of `src/smarttree.py`. The tree indexes points
(`Instance`: an id and a coordinate vector) in a D-dimensional space. Every node owns a
box of half-open intervals `[lo, hi)`, one per axis. A node is either a leaf holding
instances, or an internal node with exactly two children. Inserting into a leaf that
holds at least `split_k` instances, and has an axis wider than twice its `min_range`,
splits the leaf. The split axis is the eligible axis whose coordinates have the highest
sample variance. The cut is at their mean, clamped so that each child keeps at least
`min_range` on that axis. The tree answers three queries: point lookup (`find`), a box
neighbour query (`getNeigbors`), and a pre-order enumeration of its leaves (`getLeafs`).

The source's `isLeaf` ("no left and no right child") becomes the constructor test
`Leaf?`. The datatype admits only the two shapes "both children" and "no children".

Everything is a pure function over immutable datatypes, with coordinates as `real`:

- `results.dfy` (`Results`): the exceptions as an `Error` datatype, plus `Result` and `Option`.
- `stats.dfy` (`Stats`): sum, mean and sample variance over exact reals.
- `boxes.dfy` (`Boxes`): intervals and boxes, the zip-truncating containment test, the two
  halves of a cut, the partition predicate, and the split-point clamp.
- `nodes.dfy` (`Nodes`): `Leaf | Internal` nodes, the stored instances, pre-order leaves,
  descent (`_find`), and the shape invariant `Valid` and the "no leaf due for a split"
  invariant `Settled`.
- `measure.dfy` (`Measure`): the termination measure for insertion. It counts whole
  `min_range` units across each box, and every split strictly lowers it.
- `splitpoint.dfy` (`SplitPoint`): `_getSplit`, that is, the variance scan over the axes
  and the clamped mean.
- `insertion.dfy` (`Insertion`): `_add` and `_split` as three mutually recursive
  functions. A split drains the parent's list from the back, exactly as
  `node.instances.pop()` does.
- `neighbors.dfy` (`Neighbors`): the pruned leaf walk and the half-open filter.
- `smarttree.dfy` (`SmartTree`): the `Tree` class, that is, the constructor, `add`, `find`,
  `getNeigbors` and `getLeafs`.

The model follows what the code does, including these points where it is looser than one
might expect:

- `add` does not check the instance's length.
- `_inNode` and the query filter compare only as many axes as `zip` pairs up.
- The constructor accepts zero or negative entries in a list `min_range`, and a negative
  number.
- `getNeigbors` takes no Euclidean radius or axis set.

An error the source raises becomes an `Err` value. `NodeNotFound` stands for
`'Node not found!'`. `IndexOutOfRange` stands for the `IndexError` that `_getSplit` hits on
an instance with too few coordinates, or on a box with more axes than `min_range` has
entries.

## Model

| member | source | states |
|---|---|---|
| `SmartTree.Create` | src/smarttree.py:31-47 | Succeeds exactly when `ranges` is non-empty, `min_range` is truthy, `split_k >= 2`, and `min_range` is a number or a list of matching length. Each failure yields the error of the first check that fails, in the source's order. A number is repeated once per axis. On success the root is one empty leaf over `ranges`, and with positive minimum ranges the tree invariant holds. |
| `SmartTree.ZeroMinRangeSplitRepeats` | src/smarttree.py:34-43 | A list `min_range` of `[0]` is accepted. A leaf holding two copies of 1.0 in `[0, 10)` is then cut at 1.0, and both copies go to `[1, 10)`. That leaf's own split is triggered, cuts at 1.0 again and yields the same box, so the source keeps splitting until CPython raises `RecursionError`. |
| `SmartTree.CreateChecked` | src/smarttree.py:31-47 | The constructor with every minimum range required to be strictly positive. It agrees with `Create` wherever that check passes, rejects with `InvalidMinRange` otherwise, and every tree it builds satisfies the invariant that insertion needs. |
| `SmartTree.Add` | src/smarttree.py:71-72 | On success the parameters and the root box are unchanged, and the multiset of stored instances grows by exactly the new instance. |
| `SmartTree.AddKeepsInvariant` | src/smarttree.py:71-78 | Adding a point of the root box to a tree satisfying the invariant never fails. The result again satisfies the invariant: partitioned boxes, every instance inside its leaf's box, and no leaf due for a split. |
| `SmartTree.AddFailsOutsideSplitRoot` | src/smarttree.py:71-90 | Once the root of a valid tree has been split, adding a point outside the root box on the zipped axes fails with `NodeNotFound` in the first descent. |
| `SmartTree.Find` | src/smarttree.py:80-81 | A successful lookup returns one of the tree's leaves, and a leaf root is returned as it is. The only failure is `NodeNotFound`. |
| `SmartTree.FindFailsOutsideBox` | src/smarttree.py:80-90 | In a valid tree, lookup fails exactly when the root has been split and the value lies outside the root box on the axes that `zip` pairs up. |
| `SmartTree.AddThenFind` | src/smarttree.py:71-93 | Round trip: after adding a point of the root box, looking it up reaches a leaf whose instances include it. |
| `SmartTree.OutOfBoxAddBreaksLaterAdd` | src/smarttree.py:71-100 | `[20.0]`, outside `[0, 10)`, is stored in the leaf root. Adding `[5.0]`, which is inside the box, then splits at 9.0. The drain finds no child for `[20.0]`, and the insertion fails with `NodeNotFound`. |
| `SmartTree.AddChecked` | src/smarttree.py:71-72 | The corrected `add`: a point outside the root box is rejected with `NodeNotFound` before anything is stored. A success adds exactly the new instance and keeps the parameters. |
| `SmartTree.AddCheckedKeepsInvariant` | src/smarttree.py:71-90 | On a tree satisfying the invariant, the corrected `add` fails exactly when the point is outside the root box, and a success keeps the invariant. |
| `SmartTree.Broadcast` | src/smarttree.py:38-39 | `[v] * n` has length `n`, and every entry is `v`. |
| `SmartTree.Area` | src/smarttree.py:55 | The query box has one interval `[x_d - r_d, x_d + r_d)` per probe coordinate. |
| `SmartTree.GetNeighbors` | src/smarttree.py:49-56 | Fails, with the dimension-mismatch error, exactly when the probe and the (broadcast) radius differ in length. Every returned instance satisfies `x_d - r_d <= v_d < x_d + r_d` on each axis it has. |
| `SmartTree.NeighborsMatchBruteForce` | src/smarttree.py:49-69 | On a valid tree the query equals a brute-force scan. It returns, in storage order, the stored instances inside the half-open box, and an instance is returned iff it is stored and inside the box. Validity is needed: it requires every stored instance to have a coordinate on every axis of its leaf. Otherwise the source's pruning can drop an answer. For example, in `Tree([(0,10),(0,10)], [1, 3], 2)`, add `[5,2]`, `[5,8]` and `[3]`. Then `getNeigbors(Instance(_, [3, 8]), 1)` prunes the subtree `[0,10)×[0,5)` at line 66, because 7 > 5, and that subtree holds `[3]`. Yet `[3]` passes line 60's zipped filter. |
| `SmartTree.GetLeafs` | src/smarttree.py:127-128 | Yields only leaves, and their instances, concatenated, are exactly the stored instances in storage order. |
| `Nodes.LeafNodes` | src/smarttree.py:130-136 | The pre-order walk yields only leaves, one more than there are internal nodes. |
| `Nodes.LeafNodesHoldAllInstances` | src/smarttree.py:130-136 | The leaves' contents, concatenated in walk order, equal the tree's stored instances: no leaf is skipped or visited twice. |
| `Nodes.Descend` | src/smarttree.py:83-90 | A leaf is returned as it is. At an internal node where neither child's box contains the value, descent fails with `NodeNotFound`, and that is the only error. A successful descent returns a leaf of the subtree, and below an internal node that leaf's box contains the value on the zipped axes. |
| `Nodes.DescendFailsOutsideBox` | src/smarttree.py:83-93 | In a valid tree, descent from an internal node fails exactly when the value lies outside the node's box on the zipped axes. |
| `Boxes.PartitionTilesZipped` | src/smarttree.py:92-98 | The two children also tile their parent under the zip-truncating test: a value passes the parent's test exactly when it passes one child's. |
| `Nodes.InstancesContained` | src/smarttree.py:92-100 | In a valid tree every stored instance lies, by `lo <= v < hi`, in the box of the subtree's root. |
| `Nodes.DescendReachesHoldingLeaf` | src/smarttree.py:83-93 | In a valid tree, descending with a stored instance never fails and ends at the leaf that holds it. |
| `Nodes.LeafBoxWithin` | src/smarttree.py:97-98 | Every leaf's box lies inside the box of each node above it. |
| `Nodes.NoLeafOutside` | src/smarttree.py:97-98 | In a valid subtree, a point outside the subtree's box lies in none of its leaves' boxes. |
| `Nodes.LeavesPartitionBox` | src/smarttree.py:83-98 | The leaves partition the root box. A point of it lies in the box of exactly one leaf, and descent returns a leaf containing it. |
| `Boxes.LowerHalf` | src/smarttree.py:97 | The left child's box equals the parent's except on the split axis, which becomes `[lo, p)`. |
| `Boxes.UpperHalf` | src/smarttree.py:98 | The right child's box equals the parent's except on the split axis, which becomes `[p, hi)`. |
| `Boxes.PartitionTiles` | src/smarttree.py:97-98 | The two children of a split tile the parent: a point is in the parent iff it is in one child, and it is never in both. |
| `Boxes.ClampSplitPoint` | src/smarttree.py:120-123 | On an axis at least `2*mr` wide, the clamped point lies in `[lo + mr, hi - mr]`. It is the mean itself when the mean lies there, and otherwise the nearer bound. |
| `Stats.MeanWithin` | src/smarttree.py:113-118 | The mean of coordinates drawn from `[lo, hi)` lies in `[lo, hi)`. |
| `SplitPoint.SplitMeanInsideLeaf` | src/smarttree.py:112-123 | When every instance lies in the leaf's box, the unclamped split point, the mean on the chosen axis, lies inside the leaf's interval on that axis. |
| `SplitPoint.ScanFrom` | src/smarttree.py:107-118 | The axis loop raises an index error exactly when an axis lacks a `min_range` entry, or an eligible axis lacks a coordinate in some instance. Otherwise it keeps the first eligible axis of maximal variance, with that axis's mean. |
| `SplitPoint.GetSplit` | src/smarttree.py:106-125 | The chosen axis is eligible, has maximal variance among eligible axes, and strictly beats every earlier eligible axis. The point is the clamped mean of that axis, and lies in `[lo + mr, hi - mr]`. |
| `SplitPoint.SplitAxisUnique` | src/smarttree.py:110-118 | At most one axis meets the split-axis rule, so the choice is deterministic. |
| `SplitPoint.TriggerHasEligibleAxis` | src/smarttree.py:102-111 | When the split trigger fires, some axis passes the eligibility test of `_getSplit`. |
| `Measure.SplitShrinksMeasure` | src/smarttree.py:120-123 | Both halves of a clamped cut hold strictly fewer whole `min_range` units than the parent box. So a chain of splits is finite. |
| `Insertion.Insert` | src/smarttree.py:74-90 | Keeps the subtree's box, and adds exactly the new instance to the stored multiset. A leaf whose trigger does not fire after the append keeps every instance, with the new one last. A leaf whose trigger fires becomes an internal node. |
| `Insertion.InsertFailsWhereDescendFails` | src/smarttree.py:74-90 | Insertion descends as `_find` does before it appends, so wherever lookup fails, insertion fails with `NodeNotFound`. |
| `Insertion.SplitLeaf` | src/smarttree.py:95-100 | A split yields an internal node over the same box. Its children are cut exactly at the axis and clamped mean that `_getSplit` chooses: the left child's box is `[lo, p)` and the right child's is `[p, hi)` on that axis, and both sides are at least `min_range` wide. The node holds exactly the drained instances. |
| `Insertion.Drain` | src/smarttree.py:99-100 | Re-adding the drained instances keeps both children's boxes. The two children together gain exactly the drained instances. |
| `Insertion.InsertKeepsValid` | src/smarttree.py:74-78 | Inserting a point of a valid subtree's box never fails, and keeps the subtree valid. |
| `Insertion.SplitLeafKeepsValid` | src/smarttree.py:95-100 | Splitting a leaf whose instances lie in its box never fails, and yields a valid subtree. |
| `Insertion.DrainKeepsValid` | src/smarttree.py:99-100 | Draining instances that each lie in one of two valid children never fails, and keeps both valid. |
| `Insertion.InsertKeepsSettled` | src/smarttree.py:77-78 | After a completed insertion no leaf is due for a split. |
| `Insertion.SplitLeafKeepsSettled` | src/smarttree.py:102-104 | After a completed split, no leaf in the new subtree is due for a split. |
| `Insertion.DrainKeepsSettled` | src/smarttree.py:99-100 | After a completed drain, no leaf of either child is due for a split. |
| `Neighbors.LeavesInArea` | src/smarttree.py:62-69 | The pruned walk yields only leaves of the subtree. |
| `Neighbors.Select` | src/smarttree.py:59-60 | The filter keeps exactly the instances that lie in the area on every zipped axis. |
| `Neighbors.PrunedScanIsComplete` | src/smarttree.py:58-69 | On a valid tree, the pruning tests (`area.lo <= left.hi`, `area.hi >= right.lo`) drop no answer. Filtering the visited leaves gives the same sequence as filtering every stored instance. |

## Findings

| source | as written | input that shows it | evidently intended | confidence | as-written member | corrected member |
|---|---|---|---|---|---|---|
| src/smarttree.py:34-43 | The constructor rejects only a falsy `min_range`. A list containing 0, or a negative number, is accepted. | `Tree([(0, 10)], [0], 2)`, then `add` a point at 1.0 twice. Each split cuts `[1, 10)` at 1.0 and gives back `[1, 10)` holding both points, so `_add` and `_split` keep recursing until CPython raises `RecursionError` in the middle of a split. | Every minimum range is strictly positive, as the scalar check `not min_range` suggests, so that splits terminate. | high (not executed) | `SmartTree.ZeroMinRangeSplitRepeats` | `SmartTree.CreateChecked` |
| src/smarttree.py:71-90 | While the root is a leaf, `_find` returns it without checking the box, so `add` stores a point outside the root box. After the root splits, that point fits neither child, and line 90 raises during the drain. | `Tree([(0, 10)], 1.0, 2)`, then `add` `[20.0]`, then `add` `[5.0]`. The split cuts at 9.0: the mean of 12.5 is clamped by line 123. Line 100 drains `[5.0]` into `[0, 9)`, then pops `[20.0]`, which fits neither `[0, 9)` nor `[9, 10)`: `'Node not found!'` is raised and `[20.0]` is lost. | `add` rejects a point outside the root box before storing anything, as descent already does once the root is split. Then an in-box insertion never fails and no instance is lost. | medium (not executed) | `SmartTree.OutOfBoxAddBreaksLaterAdd` | `SmartTree.AddChecked` |

Insertion in this model (`SmartTree.Add`, `Insertion.Insert`) is defined only for the
trees that `SmartTree.CreateChecked` builds, that is, trees with strictly positive
minimum ranges.

## Left out

- Insertion.Insert: requires every `min_range` entry to be strictly positive and `split_k >= 2`. With a zero or negative entry, the source can keep splitting until CPython raises `RecursionError` (see Findings), so no terminating function can model it.
- SmartTree.Add: carries the same precondition as `Insertion.Insert`, for the same reason.
- SplitPoint.GetSplit: requires an eligible axis. The source's fall-through with `best_dim = -1`, which indexes the last axis with a split point of minus infinity, is unreachable from `_split`, because the trigger guarantees an eligible axis.
- SmartTree.Add: on an error it returns `Err` and stores nothing, whereas the source leaves a modified tree behind. An `IndexError` from `_getSplit` on the leaf the instance was just added to comes after line 76 has appended the instance and before lines 97-98 run. So the source keeps the new instance in that leaf, and every later `add` into that leaf raises again. A `NodeNotFound` raised while a split drains its instances (line 100) comes after the children are installed and the offending instance has been popped. The source then keeps a split node, loses that instance and every instance not yet drained, and the failing insertion's own point may already be stored (see Findings). A `NodeNotFound` raised by the first descent, before line 76, changes nothing.
- `__str__` and `___str__`: a debug dump with no bearing on correctness.
- The Euclidean-distance filter is not modelled. The callers in `run_smarttree.py` and `plot_smarttree.py` pass a radius and an axis set, but `getNeigbors` takes only `(instance, max_dis)`, so the filter does not exist in the code.
- Floating-point rounding in `statistics.mean` and `statistics.variance`: coordinates and statistics are exact reals.
- Generators: `getLeafs` and `_getLeafsInArea` become finite sequences. Purity makes repeated calls with no insertion in between return the same sequence.
- Node identity: `find` and `getLeafs` return node values, not references into a mutable tree.
- An instance's `id` is modelled as an `int`. A non-number, non-list `min_range` keeps only its truthiness (`MinOther`). A `max_dis` that is neither a number nor a list is not modelled.
- The threaded producer and consumer, map downloads, plotting, CSV parsing, database access and configuration loading are I/O outside the tree. They are in `run_smarttree.py`, `plot_smarttree.py`, `src/parser.py`, `src/postgres.py`, `main.py`, `src/utils.py` and `src/models.py`.

=== FILE: boxes.dfy ===
/** Half-open boxes: the bounding region every node of the tree owns, the
    containment test used for descent and filtering, and the way a split
    cuts one box into two. */
module Boxes {

  /** The interval [lo, hi) on one axis. */
  datatype Interval = Interval(lo: real, hi: real)

  /** One interval per dimension. */
  type Ranges = seq<Interval>

  function Width(iv: Interval): real
  {
    iv.hi - iv.lo
  }

  /** `lo <= v < hi` on every axis that both the point and the box have.
      Python's `zip` stops at the shorter list, so extra coordinates (or
      extra intervals) are never looked at. */
  predicate InRanges(v: seq<real>, rs: Ranges)
  {
    forall d :: 0 <= d < |v| && d < |rs| ==> rs[d].lo <= v[d] < rs[d].hi
  }

  /** Full containment: the point has a coordinate for every axis of the box
      and each lies in its half-open interval. */
  predicate Contained(v: seq<real>, rs: Ranges)
  {
    |v| >= |rs| && InRanges(v, rs)
  }

  /** The lower child's box: the parent's, with axis `d` cut to [lo, p). */
  function LowerHalf(rs: Ranges, d: nat, p: real): (lower: Ranges)
    requires d < |rs|
    ensures |lower| == |rs|
    ensures lower[d] == Interval(rs[d].lo, p)
    ensures forall e :: 0 <= e < |rs| && e != d ==> lower[e] == rs[e]
  {
    rs[d := Interval(rs[d].lo, p)]
  }

  /** The upper child's box: the parent's, with axis `d` cut to [p, hi). */
  function UpperHalf(rs: Ranges, d: nat, p: real): (upper: Ranges)
    requires d < |rs|
    ensures |upper| == |rs|
    ensures upper[d] == Interval(p, rs[d].hi)
    ensures forall e :: 0 <= e < |rs| && e != d ==> upper[e] == rs[e]
  {
    rs[d := Interval(p, rs[d].hi)]
  }

  /** Cutting `rs` on axis `d` at `p` yields `lower` and `upper`, and the cut
      leaves each side at least `mr[d]` (a non-negative width) wide. */
  predicate SplitAt(rs: Ranges, mr: seq<real>, d: nat, p: real, lower: Ranges, upper: Ranges)
  {
    && d < |rs| && d < |mr| && mr[d] >= 0.0
    && rs[d].lo + mr[d] <= p <= rs[d].hi - mr[d]
    && lower == LowerHalf(rs, d, p)
    && upper == UpperHalf(rs, d, p)
  }

  /** `lower` and `upper` are the two children's boxes of a split of `rs`. */
  ghost predicate Partition(rs: Ranges, mr: seq<real>, lower: Ranges, upper: Ranges)
  {
    exists d: nat, p: real :: SplitAt(rs, mr, d, p, lower, upper)
  }

  /** The split point as the source clamps it: the mean `p` is moved to
      `lo + m` when it leaves less than `m` below it, and then to `hi - m`
      when it leaves less than `m` above it. */
  function ClampSplitPoint(p: real, iv: Interval, m: real): (q: real)
    requires Width(iv) >= 2.0 * m
    ensures iv.lo + m <= q <= iv.hi - m
    ensures iv.lo + m <= p <= iv.hi - m ==> q == p
    ensures p < iv.lo + m ==> q == iv.lo + m
    ensures p > iv.hi - m ==> q == iv.hi - m
  {
    var q1 := if p - iv.lo < m then iv.lo + m else p;
    if iv.hi - q1 < m then iv.hi - m else q1
  }

  /** The two children tile their parent: a point with enough coordinates
      lies in the parent exactly when it lies in one of the children, and it
      never lies in both. */
  lemma PartitionTiles(rs: Ranges, mr: seq<real>, lower: Ranges, upper: Ranges, v: seq<real>)
    requires Partition(rs, mr, lower, upper)
    ensures |lower| == |rs| && |upper| == |rs|
    ensures Contained(v, rs) <==> Contained(v, lower) || Contained(v, upper)
    ensures !(Contained(v, lower) && Contained(v, upper))
  {

  }

  /** The children also tile their parent under the zip-truncating test:
      a point passes the parent's test exactly when it passes one child's.
      A point too short to reach the cut axis passes both. */
  lemma PartitionTilesZipped(rs: Ranges, mr: seq<real>, lower: Ranges, upper: Ranges, v: seq<real>)
    requires Partition(rs, mr, lower, upper)
    ensures InRanges(v, rs) <==> InRanges(v, lower) || InRanges(v, upper)
  {

  }
}

=== FILE: insertion.dfy ===
/** Insertion as `_add` and `_split` perform it: descend to the leaf whose
    box holds the value, append, and split the leaf when the trigger fires.
    A split installs both children, then drains the parent's instances from
    the back of its list, re-adding each through the new children, any of
    which may split in turn. */
module Insertion {
  import opened Results
  import opened Boxes
  import opened Nodes
  import opened Measure
  import opened SplitPoint

  /** `_add(x, n)`: the subtree `n` with `x` inserted. */
  function Insert(n: Node, x: Instance, mr: seq<real>, k: int): (res: Result<Node>)
    requires Positive(mr) && k >= 2
    ensures res.Ok? ==> res.value.ranges == n.ranges
    ensures res.Ok? ==> MaxMeasure(res.value, mr) <= MaxMeasure(n, mr)
    ensures res.Ok? ==> multiset(AllInstances(res.value)) == multiset(AllInstances(n)) + multiset{x}
    ensures n.Leaf? && !ShouldSplit(n.ranges, mr, k, |n.instances| + 1) ==>
              res == Ok(Leaf(n.ranges, n.instances + [x]))
    ensures n.Leaf? && ShouldSplit(n.ranges, mr, k, |n.instances| + 1) && res.Ok? ==> res.value.Internal?
    decreases MaxMeasure(n, mr), 2, NodeSize(n)
  {
    match n
    case Leaf(rs, xs) =>
      if ShouldSplit(rs, mr, k, |xs| + 1) then SplitLeaf(rs, xs + [x], mr, k)
      else Ok(Leaf(rs, xs + [x]))
    case Internal(rs, l, r) =>
      if InRanges(x.value, l.ranges) then
        match Insert(l, x, mr, k)
        case Err(e) => Err(e)
        case Ok(l') => Ok(Internal(rs, l', r))
      else if InRanges(x.value, r.ranges) then
        match Insert(r, x, mr, k)
        case Err(e) => Err(e)
        case Ok(r') => Ok(Internal(rs, l, r'))
      else Err(NodeNotFound)
  }

  /** `_split` of a leaf with box `rs` holding `xs`: the internal node that
      replaces it. */
  function SplitLeaf(rs: Ranges, xs: seq<Instance>, mr: seq<real>, k: int): (res: Result<Node>)
    requires Positive(mr) && k >= 2
    requires ShouldSplit(rs, mr, k, |xs|)
    ensures res.Ok? ==> res.value.Internal? && res.value.ranges == rs
    ensures res.Ok? ==> Partition(rs, mr, res.value.left.ranges, res.value.right.ranges)
    ensures res.Ok? ==> MaxMeasure(res.value, mr) <= BoxMeasure(rs, mr)
    ensures res.Ok? ==> multiset(AllInstances(res.value)) == multiset(xs)
    ensures res.Ok? ==>
              && (exists e :: 0 <= e < |rs| && Eligible(rs, mr, e))
              && GetSplit(rs, mr, xs).Ok?
              && var (d, p) := GetSplit(rs, mr, xs).value;
              && res.value.left.ranges == LowerHalf(rs, d, p)
              && res.value.right.ranges == UpperHalf(rs, d, p)
    decreases BoxMeasure(rs, mr), 1, 0
  {
    TriggerHasEligibleAxis(rs, mr, k, |xs|);
    match GetSplit(rs, mr, xs)
    case Err(e) => Err(e)
    case Ok((d, p)) =>
      var lower := LowerHalf(rs, d, p);
      var upper := UpperHalf(rs, d, p);
      SplitShrinksMeasure(rs, mr, d, p);
      assert SplitAt(rs, mr, d, p, lower, upper);
      match Drain(Leaf(lower, []), Leaf(upper, []), xs, mr, k)
      case Err(e) => Err(e)
      case Ok((l, r)) => Ok(Internal(rs, l, r))
  }

  /** The loop `while node.instances: _add(node.instances.pop(), node)` on a
      freshly split node with children `l` and `r`: the last instance is
      re-added first, through the left child when its box holds the value,
      else the right. */
  function Drain(l: Node, r: Node, xs: seq<Instance>, mr: seq<real>, k: int): (res: Result<(Node, Node)>)
    requires Positive(mr) && k >= 2
    ensures res.Ok? ==> res.value.0.ranges == l.ranges && res.value.1.ranges == r.ranges
    ensures res.Ok? ==> MaxMeasure(res.value.0, mr) <= MaxMeasure(l, mr)
    ensures res.Ok? ==> MaxMeasure(res.value.1, mr) <= MaxMeasure(r, mr)
    ensures res.Ok? ==>
              multiset(AllInstances(res.value.0)) + multiset(AllInstances(res.value.1))
              == multiset(AllInstances(l)) + multiset(AllInstances(r)) + multiset(xs)
    decreases Max(MaxMeasure(l, mr), MaxMeasure(r, mr)) + 1, 0, |xs|
  {
    if |xs| == 0 then Ok((l, r))
    else
      var x := xs[|xs| - 1];
      var rest := xs[..|xs| - 1];
      assert xs == rest + [x];
      if InRanges(x.value, l.ranges) then
        match Insert(l, x, mr, k)
        case Err(e) => Err(e)
        case Ok(l') => Drain(l', r, rest, mr, k)
      else if InRanges(x.value, r.ranges) then
        match Insert(r, x, mr, k)
        case Err(e) => Err(e)
        case Ok(r') => Drain(l, r', rest, mr, k)
      else Err(NodeNotFound)
  }

  /** Insertion descends as `_find` does before appending, so it fails with
      "Node not found" exactly where lookup fails: nothing is stored. */
  lemma {:induction false} InsertFailsWhereDescendFails(n: Node, x: Instance, mr: seq<real>, k: int)
    requires Positive(mr) && k >= 2
    requires Descend(n, x).Err?
    ensures Insert(n, x, mr, k) == Err(NodeNotFound)
    decreases n
  {
    match n
    case Internal(rs, l, r) =>
      if InRanges(x.value, l.ranges) {
        InsertFailsWhereDescendFails(l, x, mr, k);
      } else if InRanges(x.value, r.ranges) {
        InsertFailsWhereDescendFails(r, x, mr, k);
      }
  }

  /** Insertion keeps the shape invariant and never fails when the value
      lies in the subtree's box: in a valid tree the "Node not found" and
      index errors cannot happen. */
  lemma {:induction false} InsertKeepsValid(n: Node, x: Instance, mr: seq<real>, k: int)
    requires Positive(mr) && k >= 2
    requires Valid(n, mr) && Contained(x.value, n.ranges)
    ensures Insert(n, x, mr, k).Ok? && Valid(Insert(n, x, mr, k).value, mr)
    decreases MaxMeasure(n, mr), 2, NodeSize(n)
  {
    match n
    case Leaf(rs, xs) =>
      if ShouldSplit(rs, mr, k, |xs| + 1) {
        SplitLeafKeepsValid(rs, xs + [x], mr, k);
      } else {
        assert forall i :: 0 <= i < |xs + [x]| ==> Contained((xs + [x])[i].value, rs);
      }
    case Internal(rs, l, r) =>
      PartitionTiles(rs, mr, l.ranges, r.ranges, x.value);
      if Contained(x.value, l.ranges) {
        InsertKeepsValid(l, x, mr, k);
      } else {
        assert !InRanges(x.value, l.ranges);
        InsertKeepsValid(r, x, mr, k);
      }
  }

  lemma {:induction false} SplitLeafKeepsValid(rs: Ranges, xs: seq<Instance>, mr: seq<real>, k: int)
    requires Positive(mr) && k >= 2
    requires ShouldSplit(rs, mr, k, |xs|)
    requires |rs| == |mr| && forall i :: 0 <= i < |xs| ==> Contained(xs[i].value, rs)
    ensures SplitLeaf(rs, xs, mr, k).Ok? && Valid(SplitLeaf(rs, xs, mr, k).value, mr)
    decreases BoxMeasure(rs, mr), 1, 0
  {
    TriggerHasEligibleAxis(rs, mr, k, |xs|);
    forall e | 0 <= e < |rs| ensures HasColumn(xs, e) {
      assert forall i :: 0 <= i < |xs| ==> |xs[i].value| >= |rs|;
    }
    assert !Faults(rs, mr, xs, 0);
    var (d, p) := GetSplit(rs, mr, xs).value;
    var lower := LowerHalf(rs, d, p);
    var upper := UpperHalf(rs, d, p);
    SplitShrinksMeasure(rs, mr, d, p);
    assert SplitAt(rs, mr, d, p, lower, upper);
    forall i | 0 <= i < |xs|
      ensures Contained(xs[i].value, lower) || Contained(xs[i].value, upper)
    {
      PartitionTiles(rs, mr, lower, upper, xs[i].value);
    }
    DrainKeepsValid(Leaf(lower, []), Leaf(upper, []), xs, mr, k);
  }

  lemma {:induction false} DrainKeepsValid(l: Node, r: Node, xs: seq<Instance>, mr: seq<real>, k: int)
    requires Positive(mr) && k >= 2
    requires Valid(l, mr) && Valid(r, mr)
    requires forall i :: 0 <= i < |xs| ==> Contained(xs[i].value, l.ranges) || Contained(xs[i].value, r.ranges)
    ensures Drain(l, r, xs, mr, k).Ok?
    ensures Valid(Drain(l, r, xs, mr, k).value.0, mr) && Valid(Drain(l, r, xs, mr, k).value.1, mr)
    decreases Max(MaxMeasure(l, mr), MaxMeasure(r, mr)) + 1, 0, |xs|
  {
    if |xs| > 0 {
      var x := xs[|xs| - 1];
      var rest := xs[..|xs| - 1];
      assert forall i :: 0 <= i < |rest| ==> rest[i] == xs[i];
      if Contained(x.value, l.ranges) {
        InsertKeepsValid(l, x, mr, k);
        DrainKeepsValid(Insert(l, x, mr, k).value, r, rest, mr, k);
      } else {
        assert !InRanges(x.value, l.ranges);
        InsertKeepsValid(r, x, mr, k);
        DrainKeepsValid(l, Insert(r, x, mr, k).value, rest, mr, k);
      }
    }
  }

  /** After every completed insertion no leaf is due for a split: a leaf
      that grows past the threshold either splits or has no axis wider than
      twice its minimum range. */
  lemma {:induction false} InsertKeepsSettled(n: Node, x: Instance, mr: seq<real>, k: int)
    requires Positive(mr) && k >= 2
    requires Settled(n, mr, k)
    ensures Insert(n, x, mr, k).Ok? ==> Settled(Insert(n, x, mr, k).value, mr, k)
    decreases MaxMeasure(n, mr), 2, NodeSize(n)
  {
    match n
    case Leaf(rs, xs) =>
      if ShouldSplit(rs, mr, k, |xs| + 1) {
        SplitLeafKeepsSettled(rs, xs + [x], mr, k);
      }
    case Internal(rs, l, r) =>
      if InRanges(x.value, l.ranges) {
        InsertKeepsSettled(l, x, mr, k);
      } else if InRanges(x.value, r.ranges) {
        InsertKeepsSettled(r, x, mr, k);
      }
  }

  lemma {:induction false} SplitLeafKeepsSettled(rs: Ranges, xs: seq<Instance>, mr: seq<real>, k: int)
    requires Positive(mr) && k >= 2
    requires ShouldSplit(rs, mr, k, |xs|)
    ensures SplitLeaf(rs, xs, mr, k).Ok? ==> Settled(SplitLeaf(rs, xs, mr, k).value, mr, k)
    decreases BoxMeasure(rs, mr), 1, 0
  {
    TriggerHasEligibleAxis(rs, mr, k, |xs|);
    if GetSplit(rs, mr, xs).Ok? {
      var (d, p) := GetSplit(rs, mr, xs).value;
      SplitShrinksMeasure(rs, mr, d, p);
      DrainKeepsSettled(Leaf(LowerHalf(rs, d, p), []), Leaf(UpperHalf(rs, d, p), []), xs, mr, k);
    }
  }

  lemma {:induction false} DrainKeepsSettled(l: Node, r: Node, xs: seq<Instance>, mr: seq<real>, k: int)
    requires Positive(mr) && k >= 2
    requires Settled(l, mr, k) && Settled(r, mr, k)
    ensures Drain(l, r, xs, mr, k).Ok? ==>
              Settled(Drain(l, r, xs, mr, k).value.0, mr, k) && Settled(Drain(l, r, xs, mr, k).value.1, mr, k)
    decreases Max(MaxMeasure(l, mr), MaxMeasure(r, mr)) + 1, 0, |xs|
  {
    if |xs| > 0 {
      var x := xs[|xs| - 1];
      var rest := xs[..|xs| - 1];
      if InRanges(x.value, l.ranges) {
        InsertKeepsSettled(l, x, mr, k);
        if Insert(l, x, mr, k).Ok? {
          DrainKeepsSettled(Insert(l, x, mr, k).value, r, rest, mr, k);
        }
      } else if InRanges(x.value, r.ranges) {
        InsertKeepsSettled(r, x, mr, k);
        if Insert(r, x, mr, k).Ok? {
          DrainKeepsSettled(l, Insert(r, x, mr, k).value, rest, mr, k);
        }
      }
    }
  }
}

=== FILE: measure.dfy ===
/** A termination measure for insertion. Each split cuts the chosen axis so
    that both children are at least `min_range` narrower than the parent, so
    the number of whole `min_range` units that fit across a box strictly
    drops along every chain of splits. */
module Measure {
  import opened Boxes
  import opened Nodes

  /** Whole units of width `m` that fit across `iv` (0 when none fit). */
  function Units(iv: Interval, m: real): nat
  {
    if m <= 0.0 then 0
    else
      var q := (Width(iv) / m).Floor;
      if q < 0 then 0 else q
  }

  /** Units summed over the axes shared by the box and `mr`. */
  function BoxMeasure(rs: Ranges, mr: seq<real>): nat
  {
    if |rs| == 0 || |mr| == 0 then 0 else Units(rs[0], mr[0]) + BoxMeasure(rs[1..], mr[1..])
  }

  function Max(a: nat, b: nat): nat
  {
    if a < b then b else a
  }

  /** The largest box measure of any node in the subtree. */
  function MaxMeasure(n: Node, mr: seq<real>): nat
  {
    match n
    case Leaf(rs, _) => BoxMeasure(rs, mr)
    case Internal(rs, l, r) => Max(BoxMeasure(rs, mr), Max(MaxMeasure(l, mr), MaxMeasure(r, mr)))
  }

  /** Cancelling a positive factor from both sides of an inequality. */
  lemma CancelPositive(x: real, y: real, m: real)
    requires m > 0.0 && x * m <= y * m
    ensures x <= y
  {

  }

  lemma QuotientStep(w': real, w: real, m: real)
    requires m > 0.0 && w' <= w - m
    ensures w' / m + 1.0 <= w / m
  {
    var a, a' := w / m, w' / m;
    assert a * m == w;
    assert a' * m == w';
    assert (a' + 1.0) * m == w' + m;
    CancelPositive(a' + 1.0, a, m);
  }

  lemma QuotientAtLeastTwo(w: real, m: real)
    requires m > 0.0 && w >= 2.0 * m
    ensures w / m >= 2.0
  {

  }

  /** Narrowing an interval by at least `m`, when it held two units,
      loses at least one unit. */
  lemma UnitsShrink(iv: Interval, iv': Interval, m: real)
    requires m > 0.0
    requires Width(iv) >= 2.0 * m
    requires Width(iv') <= Width(iv) - m
    ensures Units(iv', m) < Units(iv, m)
  {
    var w, w' := Width(iv), Width(iv');
    QuotientStep(w', w, m);
    QuotientAtLeastTwo(w, m);
    var a, a' := w / m, w' / m;
    assert a.Floor >= 2;
    assert a'.Floor <= (a - 1.0).Floor;
  }

  /** Replacing one interval by one with fewer units lowers the measure. */
  lemma {:induction false} BoxMeasureShrinks(rs: Ranges, mr: seq<real>, d: nat, iv': Interval)
    requires d < |rs| && d < |mr|
    requires Units(iv', mr[d]) < Units(rs[d], mr[d])
    ensures BoxMeasure(rs[d := iv'], mr) < BoxMeasure(rs, mr)
  {
    var rs' := rs[d := iv'];
    if d == 0 {
      assert rs'[1..] == rs[1..];
    } else {
      assert rs'[1..] == rs[1..][d - 1 := iv'];
      BoxMeasureShrinks(rs[1..], mr[1..], d - 1, iv');
    }
  }

  /** Both halves of a clamped split have a smaller measure than the box. */
  lemma SplitShrinksMeasure(rs: Ranges, mr: seq<real>, d: nat, p: real)
    requires d < |rs| && d < |mr| && mr[d] > 0.0
    requires rs[d].lo + mr[d] <= p <= rs[d].hi - mr[d]
    ensures BoxMeasure(LowerHalf(rs, d, p), mr) < BoxMeasure(rs, mr)
    ensures BoxMeasure(UpperHalf(rs, d, p), mr) < BoxMeasure(rs, mr)
  {
    UnitsShrink(rs[d], Interval(rs[d].lo, p), mr[d]);
    UnitsShrink(rs[d], Interval(p, rs[d].hi), mr[d]);
    BoxMeasureShrinks(rs, mr, d, Interval(rs[d].lo, p));
    BoxMeasureShrinks(rs, mr, d, Interval(p, rs[d].hi));
  }
}

=== FILE: neighbors.dfy ===
/** The box query behind `getNeigbors`: collect the leaves a box can reach,
    pruning subtrees whose box cannot meet it, and keep the instances of
    those leaves that lie in the box. */
module Neighbors {
  import opened Boxes
  import opened Nodes

  /** The pruning test for a left child: the area starts no later than the
      child ends, on every axis both have. */
  predicate ReachesLower(area: Ranges, rs: Ranges)
  {
    forall d :: 0 <= d < |area| && d < |rs| ==> area[d].lo <= rs[d].hi
  }

  /** The pruning test for a right child: the area ends no earlier than the
      child starts, on every axis both have. */
  predicate ReachesUpper(area: Ranges, rs: Ranges)
  {
    forall d :: 0 <= d < |area| && d < |rs| ==> area[d].hi >= rs[d].lo
  }

  /** `_getLeafsInArea`: the leaves visited by the pruned walk, in order. */
  function LeavesInArea(area: Ranges, n: Node): (leaves: seq<Node>)
    ensures forall i :: 0 <= i < |leaves| ==> leaves[i].Leaf? && leaves[i] in LeafNodes(n)
  {
    match n
    case Leaf(_, _) => [n]
    case Internal(_, l, r) =>
      (if ReachesLower(area, l.ranges) then LeavesInArea(area, l) else [])
      + (if ReachesUpper(area, r.ranges) then LeavesInArea(area, r) else [])
  }

  /** The instances of `xs` that lie in `area`, in order. */
  function Select(xs: seq<Instance>, area: Ranges): (ys: seq<Instance>)
    ensures forall y :: y in ys <==> y in xs && InRanges(y.value, area)
    ensures |ys| <= |xs|
  {
    if |xs| == 0 then []
    else (if InRanges(xs[0].value, area) then [xs[0]] else []) + Select(xs[1..], area)
  }

  lemma {:induction false} SelectAppend(a: seq<Instance>, b: seq<Instance>, area: Ranges)
    ensures Select(a + b, area) == Select(a, area) + Select(b, area)
  {
    if |a| == 0 {
      assert a + b == b;
    } else {
      assert (a + b)[1..] == a[1..] + b;
      SelectAppend(a[1..], b, area);
    }
  }

  lemma SelectNone(xs: seq<Instance>, area: Ranges)
    requires forall i :: 0 <= i < |xs| ==> !InRanges(xs[i].value, area)
    ensures Select(xs, area) == []
  {

  }

  /** Pruning never loses an answer: in a valid tree, filtering the leaves
      the walk visits gives the same sequence as filtering every stored
      instance. */
  lemma {:induction false} PrunedScanIsComplete(n: Node, mr: seq<real>, area: Ranges)
    requires Valid(n, mr)
    ensures Select(Flatten(LeavesInArea(area, n)), area) == Select(AllInstances(n), area)
  {
    match n
    case Leaf(_, xs) =>
      assert Flatten([n]) == xs by {
        assert [n][1..] == [];
      }
    case Internal(rs, l, r) =>
      var a := if ReachesLower(area, l.ranges) then LeavesInArea(area, l) else [];
      var b := if ReachesUpper(area, r.ranges) then LeavesInArea(area, r) else [];
      FlattenAppend(a, b);
      SelectAppend(Flatten(a), Flatten(b), area);
      SelectAppend(AllInstances(l), AllInstances(r), area);
      if ReachesLower(area, l.ranges) {
        PrunedScanIsComplete(l, mr, area);
      } else {
        InstancesContained(l, mr);
        forall i | 0 <= i < |AllInstances(l)|
          ensures !InRanges(AllInstances(l)[i].value, area)
        {
          var d :| 0 <= d < |area| && d < |l.ranges| && area[d].lo > l.ranges[d].hi;
          var v := AllInstances(l)[i].value;
          assert v[d] < l.ranges[d].hi;
        }
        SelectNone(AllInstances(l), area);
      }
      if ReachesUpper(area, r.ranges) {
        PrunedScanIsComplete(r, mr, area);
      } else {
        InstancesContained(r, mr);
        forall i | 0 <= i < |AllInstances(r)|
          ensures !InRanges(AllInstances(r)[i].value, area)
        {
          var d :| 0 <= d < |area| && d < |r.ranges| && area[d].hi < r.ranges[d].lo;
          var v := AllInstances(r)[i].value;
          assert r.ranges[d].lo <= v[d];
        }
        SelectNone(AllInstances(r), area);
      }
  }
}

=== FILE: nodes.dfy ===
/** The nodes of the partition tree: what they store, how their leaves are
    enumerated, how a point is located, and the invariants the tree keeps. */
module Nodes {
  import opened Results
  import opened Boxes

  /** A point to index: an opaque identifier and its coordinates. */
  datatype Instance = Instance(id: int, value: seq<real>)

  /** A node owns a box; a leaf holds instances, an internal node exactly two
      children. A node is a leaf exactly when it has no children. */
  datatype Node =
    | Leaf(ranges: Ranges, instances: seq<Instance>)
    | Internal(ranges: Ranges, left: Node, right: Node)

  function NodeSize(n: Node): nat
  {
    match n
    case Leaf(_, _) => 1
    case Internal(_, l, r) => 1 + NodeSize(l) + NodeSize(r)
  }

  function InternalCount(n: Node): nat
  {
    match n
    case Leaf(_, _) => 0
    case Internal(_, l, r) => 1 + InternalCount(l) + InternalCount(r)
  }

  /** Every stored instance, leaf by leaf from left to right. */
  function AllInstances(n: Node): seq<Instance>
  {
    match n
    case Leaf(_, xs) => xs
    case Internal(_, l, r) => AllInstances(l) + AllInstances(r)
  }

  /** The leaves in pre-order, left subtree before right. */
  function LeafNodes(n: Node): (leaves: seq<Node>)
    ensures forall i :: 0 <= i < |leaves| ==> leaves[i].Leaf?
    ensures |leaves| == InternalCount(n) + 1
  {
    match n
    case Leaf(_, _) => [n]
    case Internal(_, l, r) => LeafNodes(l) + LeafNodes(r)
  }

  /** The instances of a sequence of leaves, concatenated in order. */
  function Flatten(leaves: seq<Node>): seq<Instance>
  {
    if |leaves| == 0 then []
    else (if leaves[0].Leaf? then leaves[0].instances else []) + Flatten(leaves[1..])
  }

  lemma {:induction false} FlattenAppend(a: seq<Node>, b: seq<Node>)
    ensures Flatten(a + b) == Flatten(a) + Flatten(b)
  {
    if |a| > 0 {
      FlattenAppend(a[1..], b);
      assert (a + b)[1..] == a[1..] + b;
    } else {
      assert a + b == b;
    }
  }

  /** Enumerating the leaves loses and repeats no instance: their contents,
      concatenated, are exactly what the tree stores. */
  lemma {:induction false} LeafNodesHoldAllInstances(n: Node)
    ensures Flatten(LeafNodes(n)) == AllInstances(n)
  {
    match n
    case Leaf(_, xs) =>
    case Internal(_, l, r) =>
      FlattenAppend(LeafNodes(l), LeafNodes(r));
      LeafNodesHoldAllInstances(l);
      LeafNodesHoldAllInstances(r);
  }

  /** Every `min_range` entry is strictly positive. */
  predicate Positive(mr: seq<real>)
  {
    forall d :: 0 <= d < |mr| ==> mr[d] > 0.0
  }

  /** The split trigger: the leaf holds at least `k` instances and some
      axis is wider than twice its minimum range. */
  predicate ShouldSplit(rs: Ranges, mr: seq<real>, k: int, count: nat)
  {
    count >= k && exists d :: 0 <= d < |rs| && d < |mr| && Width(rs[d]) > mr[d] * 2.0
  }

  /** No leaf is due for a split. */
  predicate Settled(n: Node, mr: seq<real>, k: int)
  {
    match n
    case Leaf(rs, xs) => !ShouldSplit(rs, mr, k, |xs|)
    case Internal(_, l, r) => Settled(l, mr, k) && Settled(r, mr, k)
  }

  /** The shape invariant: every box has one interval per dimension, every
      internal node's children partition its box with cuts no narrower than
      the minimum range, and every leaf instance lies in its leaf's box. */
  ghost predicate Valid(n: Node, mr: seq<real>)
  {
    && |n.ranges| == |mr|
    && match n
       case Leaf(rs, xs) => forall i :: 0 <= i < |xs| ==> Contained(xs[i].value, rs)
       case Internal(rs, l, r) => Partition(rs, mr, l.ranges, r.ranges) && Valid(l, mr) && Valid(r, mr)
  }

  /** Descent as in `_find`: a leaf is returned as is; at an internal node
      the left child is tried first, then the right, and a node where
      neither contains the value is an error. */
  function Descend(n: Node, x: Instance): (res: Result<Node>)
    ensures res.Ok? ==> res.value.Leaf? && res.value in LeafNodes(n)
    ensures res.Ok? && n.Internal? ==> InRanges(x.value, res.value.ranges)
    ensures res.Err? ==> res.error == NodeNotFound
    ensures n.Leaf? ==> res == Ok(n)
    ensures n.Internal? && !InRanges(x.value, n.left.ranges) && !InRanges(x.value, n.right.ranges) ==>
              res == Err(NodeNotFound)
  {
    match n
    case Leaf(_, _) => Ok(n)
    case Internal(_, l, r) =>
      if InRanges(x.value, l.ranges) then Descend(l, x)
      else if InRanges(x.value, r.ranges) then Descend(r, x)
      else Err(NodeNotFound)
  }

  /** In a valid tree, descent from an internal node fails exactly when the
      value is outside the node's box under the zip-truncating test: inside
      it, at every level one child passes the same test. */
  lemma {:induction false} DescendFailsOutsideBox(n: Node, mr: seq<real>, x: Instance)
    requires Valid(n, mr) && n.Internal?
    ensures Descend(n, x).Err? <==> !InRanges(x.value, n.ranges)
  {
    PartitionTilesZipped(n.ranges, mr, n.left.ranges, n.right.ranges, x.value);
    if InRanges(x.value, n.ranges) {
      DescendSucceedsInside(n, mr, x);
    }
  }

  lemma {:induction false} DescendSucceedsInside(n: Node, mr: seq<real>, x: Instance)
    requires Valid(n, mr) && InRanges(x.value, n.ranges)
    ensures Descend(n, x).Ok?
  {
    match n
    case Leaf(_, _) =>
    case Internal(rs, l, r) =>
      PartitionTilesZipped(rs, mr, l.ranges, r.ranges, x.value);
      if InRanges(x.value, l.ranges) {
        DescendSucceedsInside(l, mr, x);
      } else {
        DescendSucceedsInside(r, mr, x);
      }
  }

  /** In a valid tree every stored instance lies in the box of each node
      above it, the root's box included. */
  lemma {:induction false} InstancesContained(n: Node, mr: seq<real>)
    requires Valid(n, mr)
    ensures forall i :: 0 <= i < |AllInstances(n)| ==> Contained(AllInstances(n)[i].value, n.ranges)
  {
    match n
    case Leaf(_, _) =>
    case Internal(rs, l, r) =>
      InstancesContained(l, mr);
      InstancesContained(r, mr);
      forall i | 0 <= i < |AllInstances(n)|
        ensures Contained(AllInstances(n)[i].value, rs)
      {
        PartitionTiles(rs, mr, l.ranges, r.ranges, AllInstances(n)[i].value);
        if i < |AllInstances(l)| {
          assert AllInstances(n)[i] == AllInstances(l)[i];
        } else {
          assert AllInstances(n)[i] == AllInstances(r)[i - |AllInstances(l)|];
        }
      }
  }

  /** Lookup finds what was stored: in a valid tree, descending with a
      stored instance's value ends at the leaf that holds it. */
  lemma {:induction false} DescendReachesHoldingLeaf(n: Node, mr: seq<real>, x: Instance)
    requires Valid(n, mr)
    requires x in AllInstances(n)
    ensures Descend(n, x).Ok? && x in Descend(n, x).value.instances
  {
    match n
    case Leaf(_, _) =>
    case Internal(rs, l, r) =>
      PartitionTiles(rs, mr, l.ranges, r.ranges, x.value);
      InstancesContained(l, mr);
      InstancesContained(r, mr);
      if x in AllInstances(l) {
        var i :| 0 <= i < |AllInstances(l)| && AllInstances(l)[i] == x;
        assert Contained(x.value, l.ranges);
        DescendReachesHoldingLeaf(l, mr, x);
      } else {
        assert x in AllInstances(r);
        var i :| 0 <= i < |AllInstances(r)| && AllInstances(r)[i] == x;
        assert Contained(x.value, r.ranges);
        assert !InRanges(x.value, l.ranges);
        DescendReachesHoldingLeaf(r, mr, x);
      }
  }

  /** A leaf's box lies inside the box of every node above it. */
  lemma {:induction false} LeafBoxWithin(n: Node, mr: seq<real>, i: nat, v: seq<real>)
    requires Valid(n, mr)
    requires i < |LeafNodes(n)|
    requires Contained(v, LeafNodes(n)[i].ranges)
    ensures Contained(v, n.ranges)
  {
    match n
    case Leaf(_, _) =>
    case Internal(rs, l, r) =>
      PartitionTiles(rs, mr, l.ranges, r.ranges, v);
      if i < |LeafNodes(l)| {
        assert LeafNodes(n)[i] == LeafNodes(l)[i];
        LeafBoxWithin(l, mr, i, v);
      } else {
        assert LeafNodes(n)[i] == LeafNodes(r)[i - |LeafNodes(l)|];
        LeafBoxWithin(r, mr, i - |LeafNodes(l)|, v);
      }
  }

  /** Descent with a point of the box succeeds, and the leaf it reaches
      contains the point. */
  lemma {:induction false} DescendLandsInBox(n: Node, mr: seq<real>, x: Instance)
    requires Valid(n, mr)
    requires Contained(x.value, n.ranges)
    ensures Descend(n, x).Ok? && Contained(x.value, Descend(n, x).value.ranges)
  {
    match n
    case Leaf(_, _) =>
    case Internal(rs, l, r) =>
      PartitionTiles(rs, mr, l.ranges, r.ranges, x.value);
      if Contained(x.value, l.ranges) {
        DescendLandsInBox(l, mr, x);
      } else {
        assert !InRanges(x.value, l.ranges);
        DescendLandsInBox(r, mr, x);
      }
  }

  /** A point outside a valid subtree's box lies in none of its leaves'
      boxes. */
  lemma NoLeafOutside(n: Node, mr: seq<real>, v: seq<real>)
    requires Valid(n, mr)
    requires !Contained(v, n.ranges)
    ensures forall j :: 0 <= j < |LeafNodes(n)| ==> !Contained(v, LeafNodes(n)[j].ranges)
  {
    forall j | 0 <= j < |LeafNodes(n)|
      ensures !Contained(v, LeafNodes(n)[j].ranges)
    {
      if Contained(v, LeafNodes(n)[j].ranges) {
        LeafBoxWithin(n, mr, j, v);
      }
    }
  }

  /** The leaves partition the root's box: a point of the box lies in
      exactly one leaf's box, and descent returns that leaf. */
  lemma {:induction false} LeavesPartitionBox(n: Node, mr: seq<real>, x: Instance)
    requires Valid(n, mr)
    requires Contained(x.value, n.ranges)
    ensures Descend(n, x).Ok? && Contained(x.value, Descend(n, x).value.ranges)
    ensures forall i, j :: 0 <= i < |LeafNodes(n)| && 0 <= j < |LeafNodes(n)|
              && Contained(x.value, LeafNodes(n)[i].ranges) && Contained(x.value, LeafNodes(n)[j].ranges)
              ==> i == j
  {
    DescendLandsInBox(n, mr, x);
    match n
    case Leaf(_, _) =>
    case Internal(rs, l, r) =>
      var v := x.value;
      PartitionTiles(rs, mr, l.ranges, r.ranges, v);
      var nl := |LeafNodes(l)|;
      assert forall i :: 0 <= i < nl ==> LeafNodes(n)[i] == LeafNodes(l)[i];
      assert forall i :: nl <= i < |LeafNodes(n)| ==> LeafNodes(n)[i] == LeafNodes(r)[i - nl];
      if Contained(v, l.ranges) {
        LeavesPartitionBox(l, mr, x);
        NoLeafOutside(r, mr, v);
      } else {
        LeavesPartitionBox(r, mr, x);
        NoLeafOutside(l, mr, v);
      }
  }
}

=== FILE: results.dfy ===
/** Failure values of the partition tree and the wrappers that carry them. */
module Results {

  /** The exceptions the tree raises, one constructor per distinct cause. */
  datatype Error =
    | InvalidRanges               // constructor: `ranges` is empty
    | InvalidMinRange             // constructor: `min_range` is falsy (0 or an empty list)
    | InvalidSplitK               // constructor: `split_k < 2`
    | InvalidMinRangeType         // constructor: `min_range` is neither a number nor a list
    | MinRangeDimensionMismatch   // constructor: `len(min_range) != len(ranges)`
    | QueryDimensionMismatch      // neighbour query: probe and radius lengths differ
    | NodeNotFound                // descent finds no child containing the value
    | IndexOutOfRange             // a coordinate or min_range lookup past the end of its list

  datatype Result<+T> = Ok(value: T) | Err(error: Error)

  datatype Option<+T> = None | Some(value: T)
}

=== FILE: smarttree.dfy ===
/** The public face of the partition tree (`Tree` in the source): the
    validating constructor, insertion, point lookup, the box neighbour
    query, and leaf enumeration. */
module SmartTree {
  import opened Results
  import opened Boxes
  import opened Nodes
  import opened Insertion
  import opened Neighbors
  import opened SplitPoint
  import opened Stats

  /** The `min_range` argument: a number, a list, or some other value, of
      which only its truthiness matters before it is rejected. */
  datatype MinRange = MinScalar(m: real) | MinList(ms: seq<real>) | MinOther(truthy: bool)

  /** The `max_dis` argument of a neighbour query: a number or a list. */
  datatype Radius = RadiusScalar(r: real) | RadiusList(rs: seq<real>)

  datatype Tree = Tree(root: Node, minRanges: seq<real>, splitK: int)

  /** Python truthiness of `min_range`: a zero number or an empty list is
      falsy. */
  predicate Truthy(m: MinRange)
  {
    match m
    case MinScalar(v) => v != 0.0
    case MinList(vs) => |vs| > 0
    case MinOther(t) => t
  }

  /** `[v] * n` */
  function Broadcast(v: real, n: nat): (vs: seq<real>)
    ensures |vs| == n && forall i :: 0 <= i < n ==> vs[i] == v
  {
    seq(n, _ => v)
  }

  /** `Tree(ranges, min_range, split_k)`. The checks run in the source's
      order and the first failing one names the error. */
  function Create(ranges: Ranges, minRange: MinRange, splitK: int): (res: Result<Tree>)
    ensures res.Ok? <==>
      && |ranges| > 0 && Truthy(minRange) && splitK >= 2
      && (minRange.MinScalar? || (minRange.MinList? && |minRange.ms| == |ranges|))
    ensures |ranges| == 0 ==> res == Err(InvalidRanges)
    ensures |ranges| > 0 && !Truthy(minRange) ==> res == Err(InvalidMinRange)
    ensures |ranges| > 0 && Truthy(minRange) && splitK < 2 ==> res == Err(InvalidSplitK)
    ensures |ranges| > 0 && Truthy(minRange) && splitK >= 2 && minRange.MinOther? ==> res == Err(InvalidMinRangeType)
    ensures |ranges| > 0 && Truthy(minRange) && splitK >= 2 && minRange.MinList? && |minRange.ms| != |ranges| ==>
              res == Err(MinRangeDimensionMismatch)
    ensures res.Ok? ==> res.value.root == Leaf(ranges, []) && res.value.splitK == splitK
    ensures res.Ok? ==> |res.value.minRanges| == |ranges|
    ensures res.Ok? && minRange.MinScalar? ==> forall d :: 0 <= d < |ranges| ==> res.value.minRanges[d] == minRange.m
    ensures res.Ok? && minRange.MinList? ==> res.value.minRanges == minRange.ms
    ensures res.Ok? && Positive(res.value.minRanges) ==> Invariant(res.value)
  {
    if |ranges| == 0 then Err(InvalidRanges)
    else if !Truthy(minRange) then Err(InvalidMinRange)
    else if splitK < 2 then Err(InvalidSplitK)
    else
      var mr := match minRange
        case MinScalar(v) => Broadcast(v, |ranges|)
        case MinList(vs) => vs
        case MinOther(_) => [];
      if minRange.MinOther? then Err(InvalidMinRangeType)
      else if |mr| != |ranges| then Err(MinRangeDimensionMismatch)
      else Ok(Tree(Leaf(ranges, []), mr, splitK))
  }

  /** A zero entry in a list `min_range` passes the constructor, yet two
      copies of the point 1.0 make the splits repeat until the interpreter's
      recursion limit stops them: the first split of [0, 10) cuts at their
      mean 1.0 and both copies land in [1, 10); splitting that leaf cuts at
      1.0 again and gives back the same box holding the same two copies,
      whose trigger fires again. */
  lemma ZeroMinRangeSplitRepeats()
    ensures Create([Interval(0.0, 10.0)], MinList([0.0]), 2).Ok?
    ensures var x := Instance(0, [1.0]);
            && Eligible([Interval(0.0, 10.0)], [0.0], 0)
            && GetSplit([Interval(0.0, 10.0)], [0.0], [x, x]) == Ok((0, 1.0))
            && UpperHalf([Interval(0.0, 10.0)], 0, 1.0) == [Interval(1.0, 10.0)]
    ensures var rs, mr, x := [Interval(1.0, 10.0)], [0.0], Instance(0, [1.0]);
            && ShouldSplit(rs, mr, 2, 2) && Eligible(rs, mr, 0)
            && GetSplit(rs, mr, [x, x]) == Ok((0, 1.0))
            && !InRanges(x.value, LowerHalf(rs, 0, 1.0))
            && UpperHalf(rs, 0, 1.0) == rs
  {

  }

  /** The constructor with the evidently intended check: every minimum
      range must be strictly positive, as the test `not min_range` demands
      of a single number. Trees it builds satisfy the invariant, so
      insertion is defined and terminates on them. */
  function CreateChecked(ranges: Ranges, minRange: MinRange, splitK: int): (res: Result<Tree>)
    ensures res.Ok? <==> Create(ranges, minRange, splitK).Ok? && Positive(Create(ranges, minRange, splitK).value.minRanges)
    ensures res.Ok? ==> res == Create(ranges, minRange, splitK)
    ensures res.Ok? ==> Configured(res.value) && Invariant(res.value)
    ensures Create(ranges, minRange, splitK).Ok? && !res.Ok? ==> res == Err(InvalidMinRange)
  {
    match Create(ranges, minRange, splitK)
    case Err(e) => Err(e)
    case Ok(t) => if Positive(t.minRanges) then Ok(t) else Err(InvalidMinRange)
  }

  /** The parameters insertion needs to terminate: every minimum range
      strictly positive, and the split threshold the constructor enforces. */
  predicate Configured(t: Tree)
  {
    Positive(t.minRanges) && t.splitK >= 2
  }

  /** What holds of every tree built by the constructor and insertions of
      points inside the root box. */
  ghost predicate Invariant(t: Tree)
  {
    Configured(t) && Valid(t.root, t.minRanges) && Settled(t.root, t.minRanges, t.splitK)
  }

  /** `add(instance)`. The source does not check the instance's length. */
  function Add(t: Tree, x: Instance): (res: Result<Tree>)
    requires Configured(t)
    ensures res.Ok? ==> res.value.minRanges == t.minRanges && res.value.splitK == t.splitK
    ensures res.Ok? ==> res.value.root.ranges == t.root.ranges
    ensures res.Ok? ==> multiset(AllInstances(res.value.root)) == multiset(AllInstances(t.root)) + multiset{x}
  {
    match Insert(t.root, x, t.minRanges, t.splitK)
    case Err(e) => Err(e)
    case Ok(root) => Ok(t.(root := root))
  }

  /** Adding a point of the root box always succeeds and keeps the
      invariant. */
  lemma AddKeepsInvariant(t: Tree, x: Instance)
    requires Invariant(t)
    requires Contained(x.value, t.root.ranges)
    ensures Add(t, x).Ok? && Invariant(Add(t, x).value)
  {
    InsertKeepsValid(t.root, x, t.minRanges, t.splitK);
    InsertKeepsSettled(t.root, x, t.minRanges, t.splitK);
  }

  /** While the root is a leaf, `add` stores a point outside the root box
      without complaint. Once a later insertion splits the root, draining
      reaches that point, neither child's box holds it, and the insertion
      fails with "Node not found" although its own point lies in the box:
      [20] is stored in [0, 10), adding [5] cuts at the clamped mean 9, and
      [20] fits neither [0, 9) nor [9, 10). */
  lemma OutOfBoxAddBreaksLaterAdd()
    ensures var t, a := Tree(Leaf([Interval(0.0, 10.0)], []), [1.0], 2), Instance(0, [20.0]);
            && !Contained(a.value, t.root.ranges)
            && Add(t, a) == Ok(Tree(Leaf([Interval(0.0, 10.0)], [a]), [1.0], 2))
    ensures var t, b := Tree(Leaf([Interval(0.0, 10.0)], [Instance(0, [20.0])]), [1.0], 2), Instance(1, [5.0]);
            && Contained(b.value, t.root.ranges)
            && Eligible(t.root.ranges, [1.0], 0)
            && GetSplit(t.root.ranges, [1.0], [Instance(0, [20.0]), b]) == Ok((0, 9.0))
            && Add(t, b) == Err(NodeNotFound)
  {
    OutOfBoxSplitFails();
    OutOfBoxStoredWhileLeaf();
    OutOfBoxInsertFails();
  }

  /** The first half of `OutOfBoxAddBreaksLaterAdd`: a leaf root takes any
      point while it stays below the split threshold. */
  lemma OutOfBoxStoredWhileLeaf()
    ensures Insert(Leaf([Interval(0.0, 10.0)], []), Instance(0, [20.0]), [1.0], 2)
            == Ok(Leaf([Interval(0.0, 10.0)], [Instance(0, [20.0])]))
  {
    var a := Instance(0, [20.0]);
    assert [] + [a] == [a];
  }

  /** The second half of `OutOfBoxAddBreaksLaterAdd`: the insertion that
      triggers the split fails in the drain. */
  lemma OutOfBoxInsertFails()
    ensures Insert(Leaf([Interval(0.0, 10.0)], [Instance(0, [20.0])]), Instance(1, [5.0]), [1.0], 2)
            == Err(NodeNotFound)
  {
    var a, b := Instance(0, [20.0]), Instance(1, [5.0]);
    var rs, mr := [Interval(0.0, 10.0)], [1.0];
    OutOfBoxSplitFails();
    assert [a] + [b] == [a, b];
    assert ShouldSplit(rs, mr, 2, 2);
  }

  /** The split behind `OutOfBoxAddBreaksLaterAdd`: [0, 10) holding [20] and
      [5] is cut at 9; [5] drains into [0, 9), then [20] fits neither half. */
  lemma OutOfBoxSplitFails()
    ensures Eligible([Interval(0.0, 10.0)], [1.0], 0)
    ensures GetSplit([Interval(0.0, 10.0)], [1.0], [Instance(0, [20.0]), Instance(1, [5.0])]) == Ok((0, 9.0))
    ensures SplitLeaf([Interval(0.0, 10.0)], [Instance(0, [20.0]), Instance(1, [5.0])], [1.0], 2) == Err(NodeNotFound)
  {
    var a, b := Instance(0, [20.0]), Instance(1, [5.0]);
    var rs, mr := [Interval(0.0, 10.0)], [1.0];
    var lower, upper := [Interval(0.0, 9.0)], [Interval(9.0, 10.0)];
    assert GetSplit(rs, mr, [a, b]) == Ok((0, 9.0)) by {
      assert Eligible(rs, mr, 0);
      assert Column([a, b], 0) == [20.0, 5.0];
      assert Mean([20.0, 5.0]) == 12.5;
    }
    assert Insert(Leaf(lower, []), b, mr, 2) == Ok(Leaf(lower, [b])) by {
      assert [] + [b] == [b];
    }
    assert Drain(Leaf(lower, [b]), Leaf(upper, []), [a], mr, 2) == Err(NodeNotFound);
    assert Drain(Leaf(lower, []), Leaf(upper, []), [a, b], mr, 2) == Err(NodeNotFound) by {
      assert [a, b][..1] == [a];
    }
    assert LowerHalf(rs, 0, 9.0) == lower;
    assert UpperHalf(rs, 0, 9.0) == upper;
  }

  /** `add` with the missing check: a point outside
      the root box is rejected with "Node not found" before anything is
      stored, as it already is once the root has been split. */
  function AddChecked(t: Tree, x: Instance): (res: Result<Tree>)
    requires Configured(t)
    ensures !Contained(x.value, t.root.ranges) ==> res == Err(NodeNotFound)
    ensures res.Ok? ==> Contained(x.value, t.root.ranges)
    ensures res.Ok? ==> res.value.minRanges == t.minRanges && res.value.splitK == t.splitK
    ensures res.Ok? ==> multiset(AllInstances(res.value.root)) == multiset(AllInstances(t.root)) + multiset{x}
  {
    if !Contained(x.value, t.root.ranges) then Err(NodeNotFound) else Add(t, x)
  }

  /** With the check in place no sequence of insertions can break the
      invariant: an insertion fails exactly when its point is outside the
      root box, and a successful one keeps the invariant. */
  lemma AddCheckedKeepsInvariant(t: Tree, x: Instance)
    requires Invariant(t)
    ensures AddChecked(t, x).Err? <==> !Contained(x.value, t.root.ranges)
    ensures AddChecked(t, x).Ok? ==> Invariant(AddChecked(t, x).value)
  {
    if Contained(x.value, t.root.ranges) {
      AddKeepsInvariant(t, x);
    }
  }

  /** Once the root has been split, adding a point outside the root box
      fails with "Node not found" in the first descent. */
  lemma AddFailsOutsideSplitRoot(t: Tree, x: Instance)
    requires Configured(t) && Valid(t.root, t.minRanges)
    requires t.root.Internal? && !InRanges(x.value, t.root.ranges)
    ensures Add(t, x) == Err(NodeNotFound)
  {
    DescendFailsOutsideBox(t.root, t.minRanges, x);
    InsertFailsWhereDescendFails(t.root, x, t.minRanges, t.splitK);
  }

  /** `find(instance)`: the leaf reached by descent from the root. */
  function Find(t: Tree, x: Instance): (res: Result<Node>)
    ensures res.Ok? ==> res.value.Leaf? && res.value in GetLeafs(t)
    ensures res.Err? ==> res.error == NodeNotFound
    ensures t.root.Leaf? ==> res == Ok(t.root)
  {
    Descend(t.root, x)
  }

  /** In a valid tree, lookup fails exactly when the root has been split and
      the value lies outside the root's box on the axes it has. */
  lemma FindFailsOutsideBox(t: Tree, x: Instance)
    requires Valid(t.root, t.minRanges)
    ensures Find(t, x).Err? <==> t.root.Internal? && !InRanges(x.value, t.root.ranges)
  {
    if t.root.Internal? {
      DescendFailsOutsideBox(t.root, t.minRanges, x);
    }
  }

  /** Round trip: after adding `x`, looking `x` up reaches a leaf that
      holds it. */
  lemma AddThenFind(t: Tree, x: Instance)
    requires Invariant(t)
    requires Contained(x.value, t.root.ranges)
    ensures Add(t, x).Ok?
    ensures Find(Add(t, x).value, x).Ok? && x in Find(Add(t, x).value, x).value.instances
  {
    AddKeepsInvariant(t, x);
    var t' := Add(t, x).value;
    assert x in multiset(AllInstances(t'.root));
    DescendReachesHoldingLeaf(t'.root, t'.minRanges, x);
  }

  /** `max_dis` as a per-axis list: a number is repeated once per axis. */
  function RadiusVector(radius: Radius, dims: nat): seq<real>
  {
    match radius
    case RadiusScalar(r) => Broadcast(r, dims)
    case RadiusList(rs) => rs
  }

  /** The query box `[x - r, x + r)` around the probe, axis by axis. */
  function Area(probe: seq<real>, rad: seq<real>): (area: Ranges)
    requires |probe| == |rad|
    ensures |area| == |probe|
    ensures forall d :: 0 <= d < |probe| ==> area[d] == Interval(probe[d] - rad[d], probe[d] + rad[d])
  {
    seq(|probe|, d requires 0 <= d < |probe| => Interval(probe[d] - rad[d], probe[d] + rad[d]))
  }

  /** `x_d - r_d <= v_d < x_d + r_d` on every axis the point has. */
  predicate WithinBox(probe: seq<real>, rad: seq<real>, v: seq<real>)
  {
    forall d :: 0 <= d < |probe| && d < |rad| && d < |v| ==> probe[d] - rad[d] <= v[d] < probe[d] + rad[d]
  }

  /** `getNeigbors(instance, max_dis)`. */
  function GetNeighbors(t: Tree, probe: Instance, radius: Radius): (res: Result<seq<Instance>>)
    ensures res.Err? <==> |probe.value| != |RadiusVector(radius, |t.minRanges|)|
    ensures res.Err? ==> res.error == QueryDimensionMismatch
    ensures res.Ok? ==> forall y :: y in res.value ==>
              WithinBox(probe.value, RadiusVector(radius, |t.minRanges|), y.value)
  {
    var rad := RadiusVector(radius, |t.minRanges|);
    if |probe.value| != |rad| then Err(QueryDimensionMismatch)
    else
      var area := Area(probe.value, rad);
      Ok(Select(Flatten(LeavesInArea(area, t.root)), area))
  }

  /** The neighbour query equals a brute-force scan: it returns, in storage
      order, exactly the stored instances inside the half-open box around
      the probe. */
  lemma NeighborsMatchBruteForce(t: Tree, probe: Instance, radius: Radius)
    requires Valid(t.root, t.minRanges)
    requires |probe.value| == |RadiusVector(radius, |t.minRanges|)|
    ensures GetNeighbors(t, probe, radius)
            == Ok(Select(AllInstances(t.root), Area(probe.value, RadiusVector(radius, |t.minRanges|))))
    ensures forall y :: y in GetNeighbors(t, probe, radius).value <==>
              y in AllInstances(t.root) && WithinBox(probe.value, RadiusVector(radius, |t.minRanges|), y.value)
  {
    var rad := RadiusVector(radius, |t.minRanges|);
    PrunedScanIsComplete(t.root, t.minRanges, Area(probe.value, rad));
  }

  /** `getLeafs()`: the leaves in pre-order. Together they hold every stored
      instance exactly once, in storage order. */
  function GetLeafs(t: Tree): (leaves: seq<Node>)
    ensures forall i :: 0 <= i < |leaves| ==> leaves[i].Leaf?
    ensures Flatten(leaves) == AllInstances(t.root)
  {
    LeafNodesHoldAllInstances(t.root);
    LeafNodes(t.root)
  }
}

=== FILE: splitpoint.dfy ===
/** Choosing where to split a full leaf, as `_getSplit` does: among the axes
    at least twice their minimum range wide, the one whose coordinates have
    the highest sample variance (the first such axis on ties), cut at the
    mean of those coordinates, clamped so that each side keeps its minimum
    range. */
module SplitPoint {
  import opened Results
  import opened Boxes
  import opened Stats
  import opened Nodes

  /** Axis `d` may be split: it is at least twice its minimum range wide. */
  predicate Eligible(rs: Ranges, mr: seq<real>, d: nat)
  {
    d < |rs| && d < |mr| && !(Width(rs[d]) < mr[d] * 2.0)
  }

  /** Every instance has a coordinate on axis `d`. */
  predicate HasColumn(xs: seq<Instance>, d: nat)
  {
    forall i :: 0 <= i < |xs| ==> d < |xs[i].value|
  }

  /** The instances' coordinates on axis `d`, in storage order. */
  function Column(xs: seq<Instance>, d: nat): (col: seq<real>)
    requires HasColumn(xs, d)
    ensures |col| == |xs|
    ensures forall i :: 0 <= i < |xs| ==> col[i] == xs[i].value[d]
  {
    seq(|xs|, i requires 0 <= i < |xs| => xs[i].value[d])
  }

  function Score(xs: seq<Instance>, d: nat): real
    requires |xs| >= 2 && HasColumn(xs, d)
  {
    Variance(Column(xs, d))
  }

  /** `d` is the axis the source splits on: eligible, of maximal variance
      among the eligible axes, and strictly above every earlier one. */
  predicate IsSplitAxis(rs: Ranges, mr: seq<real>, xs: seq<Instance>, d: nat)
    requires |xs| >= 2
  {
    && Eligible(rs, mr, d) && HasColumn(xs, d)
    && (forall e :: 0 <= e < |rs| && Eligible(rs, mr, e) ==> HasColumn(xs, e) && Score(xs, e) <= Score(xs, d))
    && (forall e :: 0 <= e < d && Eligible(rs, mr, e) ==> HasColumn(xs, e) && Score(xs, e) < Score(xs, d))
  }

  /** A candidate kept by the scan: axis, its variance, and its mean. */
  datatype Choice = Choice(dim: nat, score: real, mean: real)

  /** After scanning axes [0, upto), `c` is the best axis seen so far. */
  predicate BestSoFar(rs: Ranges, mr: seq<real>, xs: seq<Instance>, upto: nat, c: Choice)
    requires |xs| >= 2
  {
    && c.dim < upto
    && Eligible(rs, mr, c.dim) && HasColumn(xs, c.dim)
    && c.score == Score(xs, c.dim) && c.mean == Mean(Column(xs, c.dim))
    && (forall e :: 0 <= e < upto && Eligible(rs, mr, e) ==> HasColumn(xs, e) && Score(xs, e) <= c.score)
    && (forall e :: 0 <= e < c.dim && Eligible(rs, mr, e) ==> HasColumn(xs, e) && Score(xs, e) < c.score)
  }

  /** The scan raises an index error from axis `from` on: some axis has no
      `min_range` entry, or an eligible axis is missing from an instance. */
  predicate Faults(rs: Ranges, mr: seq<real>, xs: seq<Instance>, from: nat)
  {
    |rs| > |mr| || exists e :: from <= e < |rs| && Eligible(rs, mr, e) && !HasColumn(xs, e)
  }

  /** The loop of `_getSplit` from axis `from` on, with the best candidate
      so far (`None` standing for the initial score of minus infinity). */
  function ScanFrom(rs: Ranges, mr: seq<real>, xs: seq<Instance>, from: nat, best: Option<Choice>): (res: Result<Choice>)
    requires |xs| >= 2
    requires from <= |rs| && from <= |mr|
    requires best.Some? ==> BestSoFar(rs, mr, xs, from, best.value)
    requires best.None? ==> forall e :: 0 <= e < from ==> !Eligible(rs, mr, e)
    requires best.None? ==> exists e :: from <= e < |rs| && Eligible(rs, mr, e)
    ensures res.Err? <==> Faults(rs, mr, xs, from)
    ensures res.Err? ==> res.error == IndexOutOfRange
    ensures res.Ok? ==> BestSoFar(rs, mr, xs, |rs|, res.value)
    decreases |rs| - from
  {
    if from == |rs| then Ok(best.value)
    else if from == |mr| then Err(IndexOutOfRange)
    else if Width(rs[from]) < mr[from] * 2.0 then ScanFrom(rs, mr, xs, from + 1, best)
    else if !HasColumn(xs, from) then Err(IndexOutOfRange)
    else
      var s := Score(xs, from);
      if best.None? || s > best.value.score then
        ScanFrom(rs, mr, xs, from + 1, Some(Choice(from, s, Mean(Column(xs, from)))))
      else
        ScanFrom(rs, mr, xs, from + 1, best)
  }

  /** The split axis and point of a leaf holding `xs`. The source calls it
      only on a leaf that passed the split trigger, so at least two
      instances and an eligible axis are present. */
  function GetSplit(rs: Ranges, mr: seq<real>, xs: seq<Instance>): (res: Result<(nat, real)>)
    requires |xs| >= 2
    requires exists e :: 0 <= e < |rs| && Eligible(rs, mr, e)
    ensures res.Err? <==> Faults(rs, mr, xs, 0)
    ensures res.Err? ==> res.error == IndexOutOfRange
    ensures res.Ok? ==>
      var (d, p) := res.value;
      && IsSplitAxis(rs, mr, xs, d)
      && p == ClampSplitPoint(Mean(Column(xs, d)), rs[d], mr[d])
      && rs[d].lo + mr[d] <= p <= rs[d].hi - mr[d]
  {
    match ScanFrom(rs, mr, xs, 0, None)
    case Err(e) => Err(e)
    case Ok(c) => Ok((c.dim, ClampSplitPoint(c.mean, rs[c.dim], mr[c.dim])))
  }

  /** When every instance lies in the leaf's box, the unclamped split point
      (the mean on the chosen axis) lies inside the leaf on that axis, so
      clamping only ever moves it inward by less than one minimum range. */
  lemma SplitMeanInsideLeaf(rs: Ranges, mr: seq<real>, xs: seq<Instance>)
    requires |xs| >= 2
    requires exists e :: 0 <= e < |rs| && Eligible(rs, mr, e)
    requires forall i :: 0 <= i < |xs| ==> Contained(xs[i].value, rs)
    ensures GetSplit(rs, mr, xs).Ok? ==>
              var d := GetSplit(rs, mr, xs).value.0;
              rs[d].lo <= Mean(Column(xs, d)) < rs[d].hi
  {
    if GetSplit(rs, mr, xs).Ok? {
      var d := GetSplit(rs, mr, xs).value.0;
      var col := Column(xs, d);
      forall i | 0 <= i < |col|
        ensures rs[d].lo <= col[i] < rs[d].hi
      {
        assert Contained(xs[i].value, rs);
      }
      MeanWithin(col, rs[d].lo, rs[d].hi);
    }
  }

  /** At most one axis satisfies the split-axis rule, so the choice is
      deterministic. */
  lemma SplitAxisUnique(rs: Ranges, mr: seq<real>, xs: seq<Instance>, d1: nat, d2: nat)
    requires |xs| >= 2
    requires IsSplitAxis(rs, mr, xs, d1) && IsSplitAxis(rs, mr, xs, d2)
    ensures d1 == d2
  {
  }

  /** The trigger guarantees an eligible axis: wider than twice the
      minimum range implies at least twice as wide. */
  lemma TriggerHasEligibleAxis(rs: Ranges, mr: seq<real>, k: int, count: nat)
    requires ShouldSplit(rs, mr, k, count)
    ensures exists e :: 0 <= e < |rs| && Eligible(rs, mr, e)
  {
    var d :| 0 <= d < |rs| && d < |mr| && Width(rs[d]) > mr[d] * 2.0;
    assert Eligible(rs, mr, d);
  }
}

=== FILE: stats.dfy ===
/** Sample statistics over exact reals, standing in for `statistics.mean`
    and `statistics.variance`. */
module Stats {

  function Sum(vs: seq<real>): real
  {
    if |vs| == 0 then 0.0 else vs[0] + Sum(vs[1..])
  }

  function Mean(vs: seq<real>): real
    requires |vs| > 0
  {
    Sum(vs) / (|vs| as real)
  }

  /** Sum of squared deviations of `vs` from the centre `c`. */
  function SquaredDeviations(vs: seq<real>, c: real): real
  {
    if |vs| == 0 then 0.0 else (vs[0] - c) * (vs[0] - c) + SquaredDeviations(vs[1..], c)
  }

  /** Sample variance (denominator n - 1); defined from two values on. */
  function Variance(vs: seq<real>): real
    requires |vs| >= 2
  {
    SquaredDeviations(vs, Mean(vs)) / ((|vs| - 1) as real)
  }

  lemma {:induction false} SumBounds(vs: seq<real>, lo: real, hi: real)
    requires forall i :: 0 <= i < |vs| ==> lo <= vs[i] < hi
    ensures (|vs| as real) * lo <= Sum(vs)
    ensures |vs| > 0 ==> Sum(vs) < (|vs| as real) * hi
  {
    if |vs| > 0 {
      SumBounds(vs[1..], lo, hi);
      assert (|vs| as real) * lo == lo + ((|vs| - 1) as real) * lo;
      assert (|vs| as real) * hi == hi + ((|vs| - 1) as real) * hi;
    }
  }

  /** The mean of values drawn from a half-open interval lies in it. */
  lemma MeanWithin(vs: seq<real>, lo: real, hi: real)
    requires |vs| > 0
    requires forall i :: 0 <= i < |vs| ==> lo <= vs[i] < hi
    ensures lo <= Mean(vs) < hi
  {
    SumBounds(vs, lo, hi);
    var n := |vs| as real;
    assert Mean(vs) * n == Sum(vs);
    assert (Mean(vs) - lo) * n >= 0.0;
    assert (hi - Mean(vs)) * n > 0.0;
  }
}
